=== FILE: README.md ===
# Penman alignment markers and decode diagnostics, in Dafny

This project models two pure pieces of the Penman graph codec:

- **Alignment markers** (`penman/surface.py`). An `AlignmentMarker` is an
  epidatum holding a tuple of token indices and an optional prefix. It comes
  in two subclasses: `Alignment` (mode 2), which aligns a node's concept, and
  `RoleAlignment` (mode 1), which aligns a relation. A marker renders as `~`,
  then the prefix, then the comma-joined indices (`~e.3`, `~1,2`). Two markers
  are equal when prefix and indices agree; the subclass is ignored.
  `alignments(g)` and `role_alignments(g)` scan a graph's epidata map. For each
  triple they keep the last marker of the requested subclass.
- **Decode-error diagnostics** (`penman/exceptions.py`). A `DecodeError`
  carries five optional fields: message, filename, line number, offset and
  source text. It renders them as a compiler-style message: a blank line, a
  `File "…", line N` header, the source line indented by four spaces, a caret
  line, and a final `DecodeError: message` line. The error classes
  (`PenmanError` and its four subclasses) form a closed tag type.

Modules:

- `Wrappers`: `Option`, standing for Python's `None`.
- `Decimal`: Python's `str` on integers, plus a reader that inverts it.
- `Text`: `sep.join(parts)` and its inverse, splitting on one character.
- `Surface`: markers, their rendering and equality, and alignment extraction.
- `Exceptions`: the error hierarchy and `DecodeError.__str__`.

The graph is reduced to what extraction reads: a `map<Triple, seq<Epidatum>>`.
An `Epidatum` is a marker or one of the layout hints `Push(variable)` and `Pop`.

Each operation is paired with an independent statement:

- Marker rendering is paired with `ReadMarker`. This reader parses `~`, a
  prefix and comma-separated integers. It exists only to prove that rendering
  loses nothing when the prefix holds no digit or `-`. Otherwise rendering can
  lose information: prefix `e1` with index 2 and prefix `e` with index 12 both
  render `~e12` (`Surface.DigitPrefixIsAmbiguous`). `Surface.RenderIndexPart` still recovers the indices for any
  prefix once the prefix's length is known. The reader is not a model of the
  codec's lexer.
- The loop in `_get_alignments` is paired with `AlignmentMap`, a declarative map.
- The diagnostic's `parts` list is paired with a position-by-position layout.
  Newline-joining is paired with splitting on newlines.

Behaviours of the code worth knowing, each proved:

- **Prefix `None` versus `''`.** `None` and `''` render alike, because
  `self.prefix or ''` is used. They still compare unequal
  (`Surface.EqualRenderingDoesNotImplyEquals`).
- **Values of the two maps.** A triple carrying both marker kinds gets
  different marker values in the two maps (`Surface.AlignmentQueriesDisjoint`).
  Python's own `==` on those two values can still be true when prefix and
  indices agree, because `__eq__` ignores the subclass.
- **Location header without source text.** `, character <offset>` is always
  appended in this case. A missing offset prints as `character None`.
- **Caret column.** The caret line is three spaces, then `offset` spaces, then
  `^`. The source line is indented by four spaces. So the caret lands under
  character `offset` counted from 1 (`Exceptions.CaretColumn`). A 0-based
  offset, such as a regular-expression match start, would therefore put the
  caret one column left of the character it names.
- **Negative offset.** Python's `' ' * n` is empty for negative `n`.
  `Exceptions.Spaces` models that.

## Model

| member | source | states |
|---|---|---|
| Surface.Mode | penman/surface.py:41-48 | Alignment has mode 2 and RoleAlignment mode 1, so the mode number alone tells the two subclasses apart |
| Surface.ParseIndexTexts | penman/surface.py:32 | reading the decimal texts of the indices back, in order, gives exactly the index sequence |
| Surface.IndexTextsHaveNoComma | penman/surface.py:32 | no index's decimal text contains `,`, so the comma join keeps the indices apart |
| Decimal.IntToString | penman/surface.py:32 | `str(i)` is non-empty, begins with `-` exactly for negatives, and otherwise consists of digits with no leading zero after the sign |
| Decimal.IntToStringRoundTrip | penman/surface.py:32 | reading the decimal text of any integer back gives that integer, so `str` on indices loses nothing |
| Decimal.IntToStringInjective | penman/surface.py:32 | distinct indices print differently |
| Text.Join | penman/surface.py:32 | `sep.join` of no parts is empty, of one part is that part, and always begins with the first part |
| Text.SplitJoin | penman/exceptions.py:44 | splitting a join on a separator that no part contains gives back exactly the parts |
| Surface.Render | penman/surface.py:30-32 | the rendering starts with `~`, followed by the prefix text (nothing for a None prefix), and is just that when there are no indices |
| Surface.RenderSingleIndex | penman/surface.py:30-32 | a marker with no prefix and one index renders as `~` followed by that index's decimal digits |
| Surface.RenderExamples | tests/test_codec.py:84-87 | `RoleAlignment((1,))` renders `~1` and `Alignment((2,))` renders `~2`; also `~e.3` and `~1,12` |
| Surface.RenderIndexPart | penman/surface.py:30-32 | for every prefix, the text after `~` and the prefix splits at commas into pieces that read back, in order, as exactly the index sequence |
| Surface.RenderRoundTrip | penman/surface.py:30-32 | for a prefix without digits or `-`, reading the rendering back yields exactly the prefix text and the index sequence |
| Surface.RenderInjective | penman/surface.py:30-32 | for such prefixes, two markers render alike if and only if their prefix texts and index sequences are equal |
| Surface.DigitPrefixIsAmbiguous | penman/surface.py:30-32 | outside that domain rendering is not injective: prefix `e1` with index 2 and prefix `e` with index 12 both render `~e12` |
| Surface.Equals | penman/surface.py:34-38 | `__eq__` holds exactly when the other epidatum is a marker that, given this marker's subclass, is this marker |
| Surface.EqualsIsEquivalence | penman/surface.py:34-38 | marker equality is reflexive, symmetric and transitive |
| Surface.MarkerNeverEqualsLayoutHint | penman/surface.py:35-36 | a marker is never equal to a Push or Pop epidatum |
| Surface.RenderRespectsEquals | penman/surface.py:30-38 | equal markers render to identical strings |
| Surface.EqualRenderingDoesNotImplyEquals | penman/surface.py:30-38 | the converse fails: prefixes None and `''` render alike but the markers are unequal |
| Surface.IsOfKind | penman/surface.py:86 | the `isinstance` test for either marker subclass is false for the layout hints Push and Pop |
| Surface.MarkerHasExactlyOneKind | penman/surface.py:41-48 | a marker passes exactly one of the Alignment and RoleAlignment `isinstance` tests, since neither class derives from the other |
| Surface.LastOfKind | penman/surface.py:85-87 | scanning one triple's epidata yields a marker exactly when some epidatum has the requested subclass; that marker is the last one of the subclass in list order |
| Surface.LastOfKindAppend | penman/surface.py:85-87 | appending a marker of the subclass makes it the kept one; appending anything else keeps the previous result |
| Surface.AlignmentMap | penman/surface.py:80-88 | the keys are triples of the epidata holding a marker of the subclass, and all such triples; each value is a marker of that subclass in the triple's list, its last one |
| Surface.AlignmentMapStep | penman/surface.py:84-87 | processing one more triple adds at most that triple's own entry to the map built so far |
| Surface.GetAlignments | penman/surface.py:80-88 | the nested scan over every triple and its epidata builds exactly the declarative alignment map of the subclass |
| Surface.Alignments | penman/surface.py:54-64 | `alignments(g)` is the alignment map of the Alignment subclass and holds only Alignment markers |
| Surface.RoleAlignments | penman/surface.py:67-77 | `role_alignments(g)` is the alignment map of the RoleAlignment subclass and holds only RoleAlignment markers |
| Surface.AlignmentQueriesDisjoint | penman/surface.py:54-77 | a triple is in both maps if and only if it carries both kinds, and then its two values differ |
| Surface.NoEpidataNoAlignments | penman/surface.py:82-88 | a graph with an empty epidata map yields an empty map for either subclass |
| Exceptions.Base | penman/exceptions.py:4-51 | PenmanError alone has no base among the package's error classes |
| Exceptions.IsSubclass | penman/exceptions.py:4-51 | a class is a subclass of another exactly when they are the same class or the other is PenmanError, so the four subclasses are unrelated |
| Exceptions.ClassName | penman/exceptions.py:42 | each class's `__name__` ends in `Error` |
| Exceptions.ClassNamesDistinct | penman/exceptions.py:4-51 | the class names differ pairwise, so the name in the diagnostic identifies the class |
| Exceptions.Spaces | penman/exceptions.py:38 | `' ' * n` consists of exactly n spaces, and of none when n is negative |
| Exceptions.OffsetText | penman/exceptions.py:40 | the offset as formatted reads back as that integer, and a missing offset prints as text that is no integer (`None`) |
| Exceptions.CaretLineShape | penman/exceptions.py:38 | for offset n the caret line is n + 3 spaces followed by `^` |
| Exceptions.HeaderLayout | penman/exceptions.py:29-34 | when a file name or line number is given, the header is a blank line then two spaces and `File "f"` and/or `line n` joined by `, `; otherwise it is empty |
| Exceptions.BodyLayout | penman/exceptions.py:29-40 | after the text step, the source text follows the header indented by four spaces and the caret line follows when an offset is given; without text, the location line gains the `character` suffix |
| Exceptions.MessageLines | penman/exceptions.py:41-43 | one closing line `DecodeError: message` when a message is given, none otherwise |
| Exceptions.Lines | penman/exceptions.py:27-43 | the parts number (2 with a location) + (1 with text) + (1 with text and offset) + (1 with a message), and with a message the last is `DecodeError: message` |
| Exceptions.LinesLayout | penman/exceptions.py:28-44 | the line count is (2 with a location) + (1 with text) + (1 with text and offset) + (1 with a message); each line is as above; the last line is `DecodeError: message` exactly when a message is given |
| Exceptions.CharacterNoneSuffix | penman/exceptions.py:39-40 | a location without text and without an offset ends in `, character None` |
| Exceptions.CaretColumn | penman/exceptions.py:35-38 | the caret line is spaces and a final `^` at column 3 + offset, which sits under character `offset` (from 1) of the indented source text |
| Exceptions.StrEmptyIff | penman/exceptions.py:28-44 | the rendering is empty if and only if filename, line number, text and message are all None |
| Exceptions.NoDetailsRendersEmpty | penman/exceptions.py:15-44 | a decode error constructed with every argument at its default renders as the empty string |
| Exceptions.StrStartsWithNewline | penman/exceptions.py:33-34 | with a file name or line number, the rendering starts with a newline |
| Exceptions.OffsetIgnoredWithoutTextOrLocation | penman/exceptions.py:33-40 | without text and without a location, changing the offset does not change the rendering |
| Exceptions.Str | penman/exceptions.py:27-44 | the rendering is empty when there are no parts, and when no argument holds a newline, splitting a non-empty rendering at newlines gives back exactly its parts |
| Exceptions.StrHasNoTrailingNewline | penman/exceptions.py:44 | when message and text hold no newline, the rendering never ends with a newline |

## Left out

- `AlignmentMarker.__repr__` (penman/surface.py:24-28): it depends on Python's `repr` of tuples and strings.
- The constructors (penman/surface.py:19-22, penman/exceptions.py:15-25) are the datatype constructors `AlignmentMarker` and `DecodeError`. Their fields hold the arguments unchanged by definition, so no separate member states it. Python's default `None` arguments are the constant `Exceptions.NoDetails` and explicit `None`s.
- Python's exception machinery is left out: raising, the `Exception` base class, `__slots__` and `isinstance` dispatch. The error classes are a closed tag type, and `type(self).__name__` is `Exceptions.ClassName`.
- `LayoutError`, `SurfaceError` and `ModelError` carry no behaviour of their own in the source. Only their place in the hierarchy is modelled.
- The graph, triple and epidatum classes live in `penman.graph`, `penman.types` and `penman.epigraph`, which are not part of this model. A graph is reduced to its epidata map. A triple is a plain (source, role, optional target) record.
- `Surface.ReadMarker` is not the codec's lexer. The notation parser, layout engine and formatter are not part of this model.
- `Surface.GetAlignments` picks the triples of the epidata map in an unspecified order, where Python follows dict insertion order. The result does not depend on that order, since each triple is written at most once. The returned dict's iteration order, which is the epidata's insertion order restricted to matching triples, is not modelled: a Dafny `map` has no order.
- `Surface.GetAlignments` records the last matching marker in a local variable and writes it once per triple. Python instead overwrites `alns[triple]` each time it meets a matching marker. Both produce the same map.

=== FILE: decimal.dfy ===
/**
 Decimal rendering of integers, as Python's `str` does it for `int`:
 no leading zeros, and a leading '-' for negative values. A reader for
 the same notation is given as its inverse.
 */
module Decimal {

  import opened Wrappers

  predicate IsDigit(c: char) {
    '0' <= c <= '9'
  }

  predicate AllDigits(s: string) {
    forall i :: 0 <= i < |s| ==> IsDigit(s[i])
  }

  function DigitChar(d: nat): (c: char)
    requires d < 10
    ensures IsDigit(c)
  {
    (('0' as int) + d) as char
  }

  function DigitValue(c: char): (d: nat)
    requires IsDigit(c)
    ensures d < 10 && DigitChar(d) == c
  {
    (c as int) - ('0' as int)
  }

  /** The decimal digits of `n`, most significant first. */
  function NatToString(n: nat): (s: string)
    ensures |s| >= 1 && AllDigits(s)
    ensures s[0] == '0' <==> n == 0
    ensures n == 0 ==> s == "0"
    decreases n
  {
    if n < 10 then [DigitChar(n)] else NatToString(n / 10) + [DigitChar(n % 10)]
  }

  /** Python's `str(i)` for an integer `i`. */
  function IntToString(i: int): (s: string)
    ensures |s| >= 1
    ensures s[0] == '-' <==> i < 0
    ensures IsDigit(s[0]) <==> i >= 0
    ensures i >= 0 ==> AllDigits(s)
    ensures i >= 0 ==> (s[0] == '0' <==> i == 0)
    ensures i == 0 ==> s == "0"
    ensures i < 0 ==> |s| >= 2 && AllDigits(s[1..]) && s[1] != '0'
  {
    if i < 0 then "-" + NatToString(-i) else NatToString(i)
  }

  /** The value of a non-empty run of decimal digits. */
  function ParseNat(s: string): nat
    requires |s| >= 1 && AllDigits(s)
    decreases |s|
  {
    if |s| == 1 then DigitValue(s[0])
    else ParseNat(s[..|s| - 1]) * 10 + DigitValue(s[|s| - 1])
  }

  /** Reads an optionally negative decimal integer; None on anything else. */
  function ParseInt(s: string): Option<int>
  {
    if |s| >= 1 && AllDigits(s) then Some(ParseNat(s))
    else if |s| >= 2 && s[0] == '-' && AllDigits(s[1..]) then Some(-(ParseNat(s[1..]) as int))
    else None
  }

  lemma {:induction false} ParseNatToString(n: nat)
    ensures ParseNat(NatToString(n)) == n
    decreases n
  {
    if n >= 10 {
      var s := NatToString(n);
      assert s == NatToString(n / 10) + [DigitChar(n % 10)];
      assert s[..|s| - 1] == NatToString(n / 10);
      ParseNatToString(n / 10);
    }
  }

  /** Reading back the decimal text of `i` gives `i`: `str` loses nothing. */
  lemma IntToStringRoundTrip(i: int)
    ensures ParseInt(IntToString(i)) == Some(i)
  {
    var s := IntToString(i);
    if i < 0 {
      assert s == "-" + NatToString(-i);
      assert s[1..] == NatToString(-i);
      assert !IsDigit(s[0]);
      ParseNatToString(-i);
      assert ParseInt(s) == Some(-(ParseNat(s[1..]) as int));
    } else {
      assert s == NatToString(i);
      ParseNatToString(i);
      assert ParseInt(s) == Some(ParseNat(s));
    }
  }

  /** Distinct integers print differently. */
  lemma IntToStringInjective(i: int, j: int)
    ensures IntToString(i) == IntToString(j) <==> i == j
  {
    IntToStringRoundTrip(i);
    IntToStringRoundTrip(j);
  }
}

=== FILE: exceptions.dfy ===
/**
 The package's error classes and the compiler-style diagnostic a decode
 error renders: an optional location header, the offending source line
 with a caret under it, and a closing `DecodeError: message` line.
 */
module Exceptions {

  import opened Wrappers
  import Decimal
  import Text

  /** The error classes, each named after its Python class; PenmanErr is the base of the others. */
  datatype Kind = PenmanErr | LayoutErr | DecodeErr | SurfaceErr | ModelErr

  /** The direct base class of each error class. */
  function Base(k: Kind): (b: Option<Kind>)
    ensures b.None? <==> k == PenmanErr
  {
    if k == PenmanErr then None else Some(PenmanErr)
  }

  function Depth(k: Kind): nat {
    if k == PenmanErr then 0 else 1
  }

  /**
   `issubclass(k, c)` over the hierarchy given by Base: every class is a
   PenmanError, and no two of the subclasses are related.
   */
  predicate IsSubclass(k: Kind, c: Kind)
    ensures IsSubclass(k, c) <==> k == c || c == PenmanErr
    decreases Depth(k)
  {
    k == c || (Base(k).Some? && IsSubclass(Base(k).value, c))
  }

  /** `type(self).__name__` of each class. */
  function ClassName(k: Kind): (name: string)
    ensures |name| > 5 && name[|name| - 5..] == "Error"
  {
    match k
    case PenmanErr => "PenmanError"
    case LayoutErr => "LayoutError"
    case DecodeErr => "DecodeError"
    case SurfaceErr => "SurfaceError"
    case ModelErr => "ModelError"
  }

  lemma ClassNamesDistinct(k: Kind, c: Kind)
    ensures ClassName(k) == ClassName(c) <==> k == c
  {
  }

  /**
   A decode error as constructed: every argument defaults to None and is
   stored unchanged. Callers pass a line number and the caret column as
   `lineno` and `offset`; the class itself puts no bounds on either.
   */
  datatype DecodeError = DecodeError(
    message: Option<string>,
    filename: Option<string>,
    lineno: Option<int>,
    offset: Option<int>,
    text: Option<string>)

  /** `DecodeError()` with every argument left at its default. */
  const NoDetails: DecodeError := DecodeError(None, None, None, None, None)

  // ---------------------------------------------------------------------
  // Building the diagnostic as the source does

  /** `' ' * n`; Python repeats a string a negative number of times as "". */
  function Spaces(n: int): (r: string)
    ensures |r| == if n < 0 then 0 else n
    ensures forall i :: 0 <= i < |r| ==> r[i] == ' '
    decreases if n < 0 then 0 else n
  {
    if n <= 0 then "" else Spaces(n - 1) + " "
  }

  /** `'{}'.format(offset)`, which prints a missing offset as `None`. */
  function OffsetText(offset: Option<int>): (r: string)
    ensures offset.Some? ==> Decimal.ParseInt(r) == Some(offset.value)
    ensures offset.None? ==> Decimal.ParseInt(r) == None
  {
    match offset
    case None => "None"
    case Some(o) => Decimal.IntToStringRoundTrip(o); Decimal.IntToString(o)
  }

  function LocationParts(e: DecodeError): seq<string> {
    (if e.filename.Some? then ["File \"" + e.filename.value + "\""] else [])
    + (if e.lineno.Some? then ["line " + Decimal.IntToString(e.lineno.value)] else [])
  }

  /** `parts` after the location step: a blank line and the joined location, if any. */
  function HeaderLines(e: DecodeError): seq<string> {
    var location := LocationParts(e);
    if |location| > 0 then ["", "  " + Text.Join(", ", location)] else []
  }

  /** `parts` after the text step: the source line and caret, or the `character` suffix. */
  function BodyLines(e: DecodeError): seq<string> {
    var header := HeaderLines(e);
    if e.text.Some? then
      header + ["    " + e.text.value]
      + (if e.offset.Some? then ["   " + Spaces(e.offset.value) + "^"] else [])
    else if |header| > 0 then
      header[..|header| - 1] + [header[|header| - 1] + ", character " + OffsetText(e.offset)]
    else header
  }

  /** The closing `parts` entry: the class name and the message, when a message is given. */
  function MessageLines(e: DecodeError): (r: seq<string>)
    ensures |r| == Count(e.message.Some?)
    ensures e.message.Some? ==> r[0] == "DecodeError: " + e.message.value
  {
    if e.message.Some? then [ClassName(DecodeErr) + ": " + e.message.value] else []
  }

  /** The `parts` list that `DecodeError.__str__` joins with newlines. */
  function Lines(e: DecodeError): (r: seq<string>)
    ensures |r| == HeaderCount(e) + Count(e.text.Some?) + Count(e.text.Some? && e.offset.Some?) + Count(e.message.Some?)
    ensures e.message.Some? ==> r[|r| - 1] == "DecodeError: " + e.message.value
  {
    BodyLines(e) + MessageLines(e)
  }

  /** `DecodeError.__str__`. */
  function Str(e: DecodeError): (r: string)
    ensures |Lines(e)| == 0 ==> r == ""
    ensures NoNewline(e.message) && NoNewline(e.filename) && NoNewline(e.text) && r != ""
            ==> Text.Split('\n', r) == Lines(e)
  {
    var joined := Text.Join("\n", Lines(e));
    if NoNewline(e.message) && NoNewline(e.filename) && NoNewline(e.text) && joined != "" then
      LinesHaveNoNewline(e);
      Text.SplitJoin('\n', Lines(e));
      joined
    else joined
  }

  // ---------------------------------------------------------------------
  // The diagnostic, line by line

  predicate HasLocation(e: DecodeError) {
    e.filename.Some? || e.lineno.Some?
  }

  /** The location header's text, by cases on which of file name and line are given. */
  function LocationText(e: DecodeError): string
    requires HasLocation(e)
  {
    match (e.filename, e.lineno)
    case (Some(f), Some(n)) => "File \"" + f + "\", line " + Decimal.IntToString(n)
    case (Some(f), None) => "File \"" + f + "\""
    case (None, Some(n)) => "line " + Decimal.IntToString(n)
  }

  /** The line holding the caret for a given offset. */
  function CaretLine(offset: int): string {
    "   " + Spaces(offset) + "^"
  }

  /** How many lines precede the source-text line: the blank line and the location. */
  function HeaderCount(e: DecodeError): nat {
    if HasLocation(e) then 2 else 0
  }

  function Count(b: bool): nat {
    if b then 1 else 0
  }

  predicate StartsWith(s: string, p: string) {
    |p| <= |s| && s[..|p|] == p
  }

  lemma HeaderLayout(e: DecodeError)
    ensures var r := HeaderLines(e);
            && |r| == HeaderCount(e)
            && (HasLocation(e) ==> r[0] == "" && r[1] == "  " + LocationText(e))
  {
    var location := LocationParts(e);
    match (e.filename, e.lineno)
    case (Some(f), Some(n)) =>
      assert location == ["File \"" + f + "\"", "line " + Decimal.IntToString(n)];
      assert Text.Join(", ", location) == location[0] + ", " + location[1];
    case (Some(f), None) =>
      assert location == ["File \"" + f + "\""];
    case (None, Some(n)) =>
      assert location == ["line " + Decimal.IntToString(n)];
    case (None, None) =>
      assert location == [];
  }

  lemma BodyLayout(e: DecodeError)
    ensures var r := BodyLines(e);
            var h := HeaderCount(e);
            && |r| == h + Count(e.text.Some?) + Count(e.text.Some? && e.offset.Some?)
            && (HasLocation(e) ==> r[0] == "")
            && (HasLocation(e) && e.text.Some? ==> r[1] == "  " + LocationText(e))
            && (HasLocation(e) && e.text.None? ==> r[1] == "  " + LocationText(e) + ", character " + OffsetText(e.offset))
            && (e.text.Some? ==> r[h] == "    " + e.text.value)
            && (e.text.Some? && e.offset.Some? ==> r[h + 1] == CaretLine(e.offset.value))
            && (forall i :: 0 <= i < |r| ==> r[i] == "" || r[i][0] == ' ')
  {
    HeaderLayout(e);
  }

  /**
   Line by line: a blank line and the location header when a file name or
   line number is given, the source text, the caret when an offset is
   given too, and the class-named message last.
   */
  lemma LinesLayout(e: DecodeError)
    ensures |Lines(e)| == HeaderCount(e) + Count(e.text.Some?) + Count(e.text.Some? && e.offset.Some?) + Count(e.message.Some?)
    ensures HasLocation(e) ==> Lines(e)[0] == ""
    ensures HasLocation(e) && e.text.Some? ==> Lines(e)[1] == "  " + LocationText(e)
    ensures HasLocation(e) && e.text.None? ==> Lines(e)[1] == "  " + LocationText(e) + ", character " + OffsetText(e.offset)
    ensures e.text.Some? ==> Lines(e)[HeaderCount(e)] == "    " + e.text.value
    ensures e.text.Some? && e.offset.Some? ==> Lines(e)[HeaderCount(e) + 1] == CaretLine(e.offset.value)
    ensures e.message.Some? ==> Lines(e)[|Lines(e)| - 1] == "DecodeError: " + e.message.value
    ensures e.message.None? ==> forall i :: 0 <= i < |Lines(e)| ==> !StartsWith(Lines(e)[i], "DecodeError: ")
  {
    BodyLayout(e);
    var r := Lines(e);
    var body := BodyLines(e);
    var message := MessageLines(e);
    assert r == body + message;
    if e.message.None? {
      assert r == body;
      forall i | 0 <= i < |r|
        ensures !StartsWith(r[i], "DecodeError: ")
      {
        assert r[i] == "" || r[i][0] == ' ';
      }
    } else {
      assert forall i :: 0 <= i < |body| ==> r[i] == body[i];
    }
  }

  /** A missing offset still reaches a text-less location header, as `character None`. */
  lemma CharacterNoneSuffix(e: DecodeError)
    requires HasLocation(e) && e.text.None? && e.offset.None?
    ensures Lines(e)[1] == "  " + LocationText(e) + ", character None"
  {
    LinesLayout(e);
  }

  /**
   The caret is printed three columns in plus `offset` spaces, while the
   source text is printed four columns in; so it sits under character
   `offset - 1` of the text (counting from 0), that is, under character
   `offset` counting from 1.
   */
  lemma CaretColumn(e: DecodeError)
    requires e.text.Some? && e.offset.Some?
    requires 1 <= e.offset.value <= |e.text.value|
    ensures Lines(e)[HeaderCount(e)] == "    " + e.text.value
    ensures Lines(e)[HeaderCount(e) + 1] == CaretLine(e.offset.value)
    ensures |CaretLine(e.offset.value)| == 4 + e.offset.value
    ensures CaretLine(e.offset.value)[3 + e.offset.value] == '^'
    ensures forall i :: 0 <= i < 3 + e.offset.value ==> CaretLine(e.offset.value)[i] == ' '
    ensures ("    " + e.text.value)[3 + e.offset.value] == e.text.value[e.offset.value - 1]
  {
    var o := e.offset.value;
    var h := HeaderCount(e);
    BodyLayout(e);
    var body := BodyLines(e);
    assert Lines(e) == body + MessageLines(e);
    assert Lines(e)[h + 1] == body[h + 1];
    assert Lines(e)[h] == body[h];
    CaretLineShape(o);
  }

  lemma CaretLineShape(o: nat)
    ensures |CaretLine(o)| == 4 + o
    ensures CaretLine(o)[3 + o] == '^'
    ensures forall i :: 0 <= i < 3 + o ==> CaretLine(o)[i] == ' '
  {
    var sp := Spaces(o);
    assert CaretLine(o) == "   " + sp + "^";
    forall i | 0 <= i < 3 + o
      ensures CaretLine(o)[i] == ' '
    {
      if i >= 3 {
        assert CaretLine(o)[i] == sp[i - 3];
      }
    }
  }

  // ---------------------------------------------------------------------
  // The joined string

  /** The rendering is empty exactly when there is nothing but (at most) an offset. */
  lemma StrEmptyIff(e: DecodeError)
    ensures Str(e) == "" <==> e.filename.None? && e.lineno.None? && e.text.None? && e.message.None?
  {
    LinesLayout(e);
    var r := Lines(e);
    if |r| >= 2 {
      assert Str(e) == r[0] + "\n" + Text.Join("\n", r[1..]);
    } else if |r| == 1 {
      assert Str(e) == r[0];
      assert |r[0]| >= 1;
    }
  }

  /** With every argument left at its default the diagnostic is empty. */
  lemma NoDetailsRendersEmpty()
    ensures Str(NoDetails) == ""
  {
    StrEmptyIff(NoDetails);
  }

  /** A location makes the diagnostic open with an empty line. */
  lemma StrStartsWithNewline(e: DecodeError)
    requires HasLocation(e)
    ensures |Str(e)| >= 1 && Str(e)[0] == '\n'
  {
    LinesLayout(e);
    var r := Lines(e);
    assert Str(e) == r[0] + "\n" + Text.Join("\n", r[1..]);
  }

  /** Without text and without a location the offset does not show at all. */
  lemma OffsetIgnoredWithoutTextOrLocation(e: DecodeError, offset: Option<int>)
    requires e.text.None? && !HasLocation(e)
    ensures Str(e.(offset := offset)) == Str(e)
  {
  }

  predicate NoNewline(s: Option<string>) {
    s.Some? ==> '\n' !in s.value
  }

  lemma IntTextHasNoNewline(i: int)
    ensures '\n' !in Decimal.IntToString(i)
  {
    var s := Decimal.IntToString(i);
    if i < 0 {
      assert forall k :: 1 <= k < |s| ==> s[k] == s[1..][k - 1];
    }
  }

  lemma HeaderHasNoNewline(e: DecodeError)
    requires NoNewline(e.filename)
    ensures Text.NoneContains('\n', HeaderLines(e))
  {
    var location := LocationParts(e);
    if e.lineno.Some? {
      IntTextHasNoNewline(e.lineno.value);
    }
    assert Text.NoneContains('\n', location);
    Text.JoinAvoids('\n', ", ", location);
  }

  lemma BodyHasNoNewline(e: DecodeError)
    requires NoNewline(e.filename) && NoNewline(e.text)
    ensures Text.NoneContains('\n', BodyLines(e))
  {
    HeaderHasNoNewline(e);
    var header := HeaderLines(e);
    var body := BodyLines(e);
    if e.offset.Some? {
      IntTextHasNoNewline(e.offset.value);
    }
    if e.text.Some? {
      var extra := if e.offset.Some? then [CaretLine(e.offset.value)] else [];
      var source := ["    " + e.text.value];
      assert body == header + source + extra;
      assert Text.NoneContains('\n', extra);
      assert Text.NoneContains('\n', source);
      Text.NoneContainsConcat('\n', header, source);
      Text.NoneContainsConcat('\n', header + source, extra);
    } else if |header| > 0 {
      var suffixed := header[|header| - 1] + ", character " + OffsetText(e.offset);
      assert '\n' !in suffixed;
      assert body == header[..|header| - 1] + [suffixed];
      assert Text.NoneContains('\n', header[..|header| - 1]);
      assert Text.NoneContains('\n', [suffixed]);
      Text.NoneContainsConcat('\n', header[..|header| - 1], [suffixed]);
    }
  }

  lemma LinesHaveNoNewline(e: DecodeError)
    requires NoNewline(e.message) && NoNewline(e.filename) && NoNewline(e.text)
    ensures Text.NoneContains('\n', Lines(e))
  {
    BodyHasNoNewline(e);
  }

  /** The last line is never empty and, when message and text hold no newline, does not end in one. */
  lemma LastLineEnding(e: DecodeError)
    requires NoNewline(e.message) && NoNewline(e.text)
    requires |Lines(e)| >= 1
    ensures var last := Lines(e)[|Lines(e)| - 1];
            |last| >= 1 && Text.LastChar(last) != '\n'
  {
    var last := Lines(e)[|Lines(e)| - 1];
    var body := BodyLines(e);
    var header := HeaderLines(e);
    if e.message.Some? {
      var m := e.message.value;
      assert last == "DecodeError: " + m;
      if |m| > 0 {
        assert last[|last| - 1] == m[|m| - 1];
      }
    } else if e.text.Some? && e.offset.Some? {
      assert last == CaretLine(e.offset.value);
    } else if e.text.Some? {
      var t := e.text.value;
      assert last == "    " + t;
      if |t| > 0 {
        assert last[|last| - 1] == t[|t| - 1];
      }
    } else {
      var o := OffsetText(e.offset);
      assert |header| > 0;
      assert last == header[|header| - 1] + ", character " + o;
      if e.offset.Some? {
        IntTextHasNoNewline(e.offset.value);
      }
      assert o[|o| - 1] != '\n';
      assert last[|last| - 1] == o[|o| - 1];
    }
  }

  /** Parts are only joined, never terminated: the diagnostic does not end with a newline. */
  lemma StrHasNoTrailingNewline(e: DecodeError)
    requires NoNewline(e.message) && NoNewline(e.text)
    ensures Str(e) == "" || Text.LastChar(Str(e)) != '\n'
  {
    var r := Lines(e);
    if |r| >= 1 {
      LastLineEnding(e);
      Text.JoinEndsWithLastPart("\n", r);
    }
  }
}

=== FILE: surface.dfy ===
/**
 Alignment markers: surface token alignments attached to graph triples
 as epidata, their `~prefix1,2` rendering, their equality, and the
 extraction of one kind of alignment from a graph's epidata.
 */
module Surface {

  import opened Wrappers
  import Decimal
  import Text

  /** The two concrete subclasses of AlignmentMarker. */
  datatype MarkerKind = AlignmentKind | RoleAlignmentKind

  /** The class attribute `mode` of each marker subclass. */
  function Mode(kind: MarkerKind): (m: int)
    ensures m == 1 || m == 2
    ensures m == 2 <==> kind == AlignmentKind
  {
    match kind
    case AlignmentKind => 2
    case RoleAlignmentKind => 1
  }

  /**
   An alignment marker as constructed: the constructor stores its indices
   and its optional prefix unchanged; `kind` records the subclass.
   */
  datatype AlignmentMarker = AlignmentMarker(kind: MarkerKind, indices: seq<int>, prefix: Option<string>)

  /**
   An epidatum attached to a triple. Push and Pop are the layout hints of
   the epigraph; they are never markers and only make the filtering below
   non-trivial.
   */
  datatype Epidatum = Push(variable: string) | Pop | Marker(marker: AlignmentMarker)

  /** A graph triple; a missing target is None. */
  datatype Triple = Triple(source: string, role: string, target: Option<string>)

  /** A graph, reduced to the part alignment extraction reads: triple -> epidata in order. */
  datatype Graph = Graph(epidata: map<Triple, seq<Epidatum>>)

  // ---------------------------------------------------------------------
  // Rendering

  /** `self.prefix or ''`: both None and the empty prefix contribute nothing. */
  function PrefixText(m: AlignmentMarker): string {
    m.prefix.GetOr("")
  }

  /** The decimal text of each index, in tuple order. */
  function IndexTexts(indices: seq<int>): seq<string> {
    seq(|indices|, i requires 0 <= i < |indices| => Decimal.IntToString(indices[i]))
  }

  /** `AlignmentMarker.__str__`: '~', the prefix, then the indices joined by ','. */
  function Render(m: AlignmentMarker): (r: string)
    ensures |r| >= 1 && r[0] == '~'
    ensures |r| >= 1 + |PrefixText(m)| && r[1..1 + |PrefixText(m)|] == PrefixText(m)
    ensures |m.indices| == 0 <==> r == "~" + PrefixText(m)
  {
    "~" + PrefixText(m) + Text.Join(",", IndexTexts(m.indices))
  }

  /** The single-index, unprefixed markers of the codec tests: `~1` and `~2`. */
  lemma RenderExamples()
    ensures Render(AlignmentMarker(RoleAlignmentKind, [1], None)) == "~1"
    ensures Render(AlignmentMarker(AlignmentKind, [2], None)) == "~2"
    ensures Render(AlignmentMarker(AlignmentKind, [3], Some("e."))) == "~e.3"
    ensures Render(AlignmentMarker(AlignmentKind, [1, 12], None)) == "~1,12"
  {
    assert Decimal.NatToString(12) == Decimal.NatToString(1) + [Decimal.DigitChar(2)];
  }

  /** With no prefix and one index, a marker renders as '~' and the index's digits. */
  lemma RenderSingleIndex(m: AlignmentMarker)
    requires PrefixText(m) == "" && |m.indices| == 1
    ensures Render(m) == "~" + Decimal.IntToString(m.indices[0])
  {
  }

  // ---------------------------------------------------------------------
  // Reading the rendering back: an inverse used to show Render loses nothing

  /** Characters that can begin an index's decimal text. */
  predicate StartsIndex(c: char) {
    Decimal.IsDigit(c) || c == '-'
  }

  /** A prefix that cannot be confused with the start of the index list. */
  predicate PrefixIsReadable(m: AlignmentMarker) {
    forall i :: 0 <= i < |PrefixText(m)| ==> !StartsIndex(PrefixText(m)[i])
  }

  /** The number of leading characters of `s` that cannot begin an index. */
  function PrefixLength(s: string): (n: nat)
    ensures n <= |s|
    decreases |s|
  {
    if |s| == 0 || StartsIndex(s[0]) then 0 else 1 + PrefixLength(s[1..])
  }

  function ParseIndices(pieces: seq<string>): Option<seq<int>>
    decreases |pieces|
  {
    if |pieces| == 0 then Some([])
    else
      match Decimal.ParseInt(pieces[0])
      case None => None
      case Some(v) =>
        match ParseIndices(pieces[1..])
        case None => None
        case Some(vs) => Some([v] + vs)
  }

  /** Reads `~`, a prefix and comma-separated decimal indices; None on anything else. */
  function ReadMarker(s: string): Option<(string, seq<int>)>
  {
    if |s| == 0 || s[0] != '~' then None
    else
      var body := s[1..];
      var n := PrefixLength(body);
      if n == |body| then Some((body, []))
      else
        match ParseIndices(Text.Split(',', body[n..]))
        case None => None
        case Some(xs) => Some((body[..n], xs))
  }

  lemma {:induction false} PrefixLengthOfConcat(p: string, q: string)
    requires forall i :: 0 <= i < |p| ==> !StartsIndex(p[i])
    requires |q| == 0 || StartsIndex(q[0])
    ensures PrefixLength(p + q) == |p|
    decreases |p|
  {
    if |p| > 0 {
      assert (p + q)[1..] == p[1..] + q;
      PrefixLengthOfConcat(p[1..], q);
    } else {
      assert p + q == q;
    }
  }

  lemma {:induction false} ParseIndexTexts(xs: seq<int>)
    ensures ParseIndices(IndexTexts(xs)) == Some(xs)
    decreases |xs|
  {
    var texts := IndexTexts(xs);
    if |xs| > 0 {
      Decimal.IntToStringRoundTrip(xs[0]);
      assert Decimal.ParseInt(texts[0]) == Some(xs[0]);
      assert texts[1..] == IndexTexts(xs[1..]);
      ParseIndexTexts(xs[1..]);
      assert ParseIndices(texts[1..]) == Some(xs[1..]);
      assert [xs[0]] + xs[1..] == xs;
    }
  }

  lemma IndexTextsHaveNoComma(xs: seq<int>)
    ensures Text.NoneContains(',', IndexTexts(xs))
  {
    forall i | 0 <= i < |xs|
      ensures ',' !in Decimal.IntToString(xs[i])
    {
      var s := Decimal.IntToString(xs[i]);
      if xs[i] < 0 {
        assert forall k :: 1 <= k < |s| ==> s[k] == s[1..][k - 1];
      }
    }
  }

  /** Rendering is inverted by ReadMarker whenever the prefix cannot be mistaken for an index. */
  lemma RenderRoundTrip(m: AlignmentMarker)
    requires PrefixIsReadable(m)
    ensures ReadMarker(Render(m)) == Some((PrefixText(m), m.indices))
  {
    var p := PrefixText(m);
    var texts := IndexTexts(m.indices);
    var joined := Text.Join(",", texts);
    var s := Render(m);
    assert s[1..] == p + joined;
    if |m.indices| == 0 {
      PrefixLengthOfConcat(p, joined);
      assert p + joined == p;
    } else {
      assert texts[0] == Decimal.IntToString(m.indices[0]);
      assert joined[..|texts[0]|] == texts[0];
      assert joined[0] == texts[0][0];
      PrefixLengthOfConcat(p, joined);
      assert (p + joined)[..|p|] == p;
      RenderIndexPart(m);
    }
  }

  /**
   Whatever the prefix, the text after `~` and the prefix splits at commas
   into pieces that read back as the index sequence.
   */
  lemma RenderIndexPart(m: AlignmentMarker)
    requires |m.indices| >= 1
    ensures ParseIndices(Text.Split(',', Render(m)[1 + |PrefixText(m)|..])) == Some(m.indices)
  {
    var texts := IndexTexts(m.indices);
    assert Render(m)[1 + |PrefixText(m)|..] == Text.Join(",", texts);
    IndexTextsHaveNoComma(m.indices);
    Text.SplitJoin(',', texts);
    ParseIndexTexts(m.indices);
  }

  /** Rendering distinguishes exactly the prefix text and the index sequence. */
  lemma RenderInjective(a: AlignmentMarker, b: AlignmentMarker)
    requires PrefixIsReadable(a) && PrefixIsReadable(b)
    ensures Render(a) == Render(b) <==> PrefixText(a) == PrefixText(b) && a.indices == b.indices
  {
    RenderRoundTrip(a);
    RenderRoundTrip(b);
  }

  /** A prefix ending in a digit runs into the first index: `~e12` has two readings. */
  lemma DigitPrefixIsAmbiguous()
    ensures Render(AlignmentMarker(AlignmentKind, [2], Some("e1")))
         == Render(AlignmentMarker(AlignmentKind, [12], Some("e")))
  {
  }

  // ---------------------------------------------------------------------
  // Equality

  /**
   `AlignmentMarker.__eq__`: false against anything that is not a marker;
   otherwise prefixes and index tuples are compared and the subclass is not.
   */
  function Equals(m: AlignmentMarker, other: Epidatum): (r: bool)
    ensures r <==> other.Marker? && other.marker.(kind := m.kind) == m
  {
    && other.Marker?
    && m.prefix == other.marker.prefix
    && m.indices == other.marker.indices
  }

  lemma EqualsIsEquivalence(a: AlignmentMarker, b: AlignmentMarker, c: AlignmentMarker)
    ensures Equals(a, Marker(a))
    ensures Equals(a, Marker(b)) ==> Equals(b, Marker(a))
    ensures Equals(a, Marker(b)) && Equals(b, Marker(c)) ==> Equals(a, Marker(c))
  {
  }

  /** Layout hints are never equal to a marker. */
  lemma MarkerNeverEqualsLayoutHint(m: AlignmentMarker, v: string)
    ensures !Equals(m, Push(v)) && !Equals(m, Pop)
  {
  }

  /** Equal markers render identically: rendering respects equality. */
  lemma RenderRespectsEquals(a: AlignmentMarker, b: AlignmentMarker)
    requires Equals(a, Marker(b))
    ensures Render(a) == Render(b)
  {
  }

  /**
   The converse fails: a None prefix and an empty prefix render alike,
   yet the markers are unequal.
   */
  lemma EqualRenderingDoesNotImplyEquals()
    ensures Render(AlignmentMarker(AlignmentKind, [1], None))
         == Render(AlignmentMarker(AlignmentKind, [1], Some("")))
    ensures !Equals(AlignmentMarker(AlignmentKind, [1], None), Marker(AlignmentMarker(AlignmentKind, [1], Some(""))))
  {
  }

  // ---------------------------------------------------------------------
  // Extraction

  /**
   `isinstance(epidatum, alignment_type)` for the two marker subclasses:
   neither derives from the other, so a marker passes exactly one of the
   two tests, and a layout hint passes neither.
   */
  predicate IsOfKind(e: Epidatum, kind: MarkerKind): (r: bool)
    ensures e.Push? || e.Pop? ==> !r
  {
    e.Marker? && e.marker.kind == kind
  }

  /** Every marker is an instance of exactly one of the two subclasses. */
  lemma MarkerHasExactlyOneKind(e: Epidatum)
    requires e.Marker?
    ensures IsOfKind(e, AlignmentKind) != IsOfKind(e, RoleAlignmentKind)
  {
  }

  predicate HasKind(eps: seq<Epidatum>, kind: MarkerKind) {
    exists i :: 0 <= i < |eps| && IsOfKind(eps[i], kind)
  }

  /** Position `i` holds a marker of `kind` and none follows it. */
  predicate IsLastOfKind(eps: seq<Epidatum>, i: int, kind: MarkerKind) {
    && 0 <= i < |eps|
    && IsOfKind(eps[i], kind)
    && forall j :: i < j < |eps| ==> !IsOfKind(eps[j], kind)
  }

  /** The marker a scan of `eps` leaves behind: the last one of `kind`, if any. */
  function LastOfKind(eps: seq<Epidatum>, kind: MarkerKind): (r: Option<AlignmentMarker>)
    ensures r.Some? <==> HasKind(eps, kind)
    ensures r.Some? ==> r.value.kind == kind && Marker(r.value) in eps
    ensures r.Some? ==> exists i :: IsLastOfKind(eps, i, kind) && eps[i].marker == r.value
    decreases |eps|
  {
    if |eps| == 0 then None
    else if IsOfKind(eps[|eps| - 1], kind) then Some(eps[|eps| - 1].marker)
    else
      var r := LastOfKind(eps[..|eps| - 1], kind);
      assert forall i :: 0 <= i < |eps| - 1 ==> eps[..|eps| - 1][i] == eps[i];
      if r.Some? then
        var i :| IsLastOfKind(eps[..|eps| - 1], i, kind) && eps[..|eps| - 1][i].marker == r.value;
        assert IsLastOfKind(eps, i, kind);
        r
      else r
  }

  /** Appending an epidatum either replaces the kept marker (same kind) or leaves it alone. */
  lemma LastOfKindAppend(eps: seq<Epidatum>, e: Epidatum, kind: MarkerKind)
    ensures IsOfKind(e, kind) ==> LastOfKind(eps + [e], kind) == Some(e.marker)
    ensures !IsOfKind(e, kind) ==> LastOfKind(eps + [e], kind) == LastOfKind(eps, kind)
  {
    assert (eps + [e])[..|eps|] == eps;
  }

  /** The alignment map of one kind: each triple with a marker of that kind, to its last such marker. */
  function AlignmentMap(epidata: map<Triple, seq<Epidatum>>, kind: MarkerKind): (r: map<Triple, AlignmentMarker>)
    ensures r.Keys <= epidata.Keys
    ensures forall t :: t in r <==> t in epidata && HasKind(epidata[t], kind)
    ensures forall t :: t in r ==> r[t].kind == kind && Marker(r[t]) in epidata[t]
    ensures forall t :: t in r ==> exists i :: IsLastOfKind(epidata[t], i, kind) && epidata[t][i].marker == r[t]
  {
    map t | t in epidata && LastOfKind(epidata[t], kind).Some? :: LastOfKind(epidata[t], kind).value
  }

  /** Taking one more triple into the scanned part of the epidata adds at most its own entry. */
  lemma AlignmentMapStep(epidata: map<Triple, seq<Epidatum>>, remaining: set<Triple>, t: Triple, kind: MarkerKind)
    requires t in remaining && remaining <= epidata.Keys
    ensures var before := AlignmentMap(epidata - remaining, kind);
            var last := LastOfKind(epidata[t], kind);
            AlignmentMap(epidata - (remaining - {t}), kind)
              == if last.Some? then before[t := last.value] else before
  {
  }

  /** `_get_alignments`: scan every triple's epidata, keeping the last marker of `kind`. */
  method GetAlignments(g: Graph, kind: MarkerKind) returns (alns: map<Triple, AlignmentMarker>)
    ensures alns == AlignmentMap(g.epidata, kind)
  {
    alns := map[];
    var remaining := g.epidata.Keys;
    while remaining != {}
      invariant remaining <= g.epidata.Keys
      invariant alns == AlignmentMap(g.epidata - remaining, kind)
      decreases remaining
    {
      var triple :| triple in remaining;
      var epidata := g.epidata[triple];
      var found: Option<AlignmentMarker> := None;
      var i := 0;
      while i < |epidata|
        invariant 0 <= i <= |epidata|
        invariant found == LastOfKind(epidata[..i], kind)
      {
        LastOfKindAppend(epidata[..i], epidata[i], kind);
        assert epidata[..i + 1] == epidata[..i] + [epidata[i]];
        if IsOfKind(epidata[i], kind) {
          found := Some(epidata[i].marker);
        }
        i := i + 1;
      }
      assert epidata[..i] == epidata;
      AlignmentMapStep(g.epidata, remaining, triple, kind);
      if found.Some? {
        alns := alns[triple := found.value];
      }
      remaining := remaining - {triple};
    }
    assert g.epidata - {} == g.epidata;
  }

  /** `alignments(g)`: the Alignment markers of `g`. */
  method Alignments(g: Graph) returns (alns: map<Triple, AlignmentMarker>)
    ensures alns == AlignmentMap(g.epidata, AlignmentKind)
    ensures forall t :: t in alns ==> alns[t].kind == AlignmentKind
  {
    alns := GetAlignments(g, AlignmentKind);
  }

  /** `role_alignments(g)`: the RoleAlignment markers of `g`. */
  method RoleAlignments(g: Graph) returns (alns: map<Triple, AlignmentMarker>)
    ensures alns == AlignmentMap(g.epidata, RoleAlignmentKind)
    ensures forall t :: t in alns ==> alns[t].kind == RoleAlignmentKind
  {
    alns := GetAlignments(g, RoleAlignmentKind);
  }

  /**
   The two queries never share a value: a triple carrying both kinds is in
   both maps, with markers of different subclasses.
   */
  lemma AlignmentQueriesDisjoint(epidata: map<Triple, seq<Epidatum>>, t: Triple)
    requires t in epidata
    ensures var a := AlignmentMap(epidata, AlignmentKind);
            var r := AlignmentMap(epidata, RoleAlignmentKind);
            (t in a && t in r <==> HasKind(epidata[t], AlignmentKind) && HasKind(epidata[t], RoleAlignmentKind))
            && (t in a && t in r ==> a[t] != r[t])
  {
  }

  /** A graph without epidata has no alignments of either kind. */
  lemma NoEpidataNoAlignments(kind: MarkerKind)
    ensures AlignmentMap(map[], kind) == map[]
  {
  }
}

=== FILE: text.dfy ===
/**
 Python's `sep.join(parts)` and its inverse, splitting on one separator
 character. Split is the partner of Join: for parts that do not contain
 the separator, splitting a join gives the parts back.
 */
module Text {

  /** `sep.join(parts)`: the parts in order, with `sep` between neighbours. */
  function Join(sep: string, parts: seq<string>): (r: string)
    ensures |parts| == 0 ==> r == ""
    ensures |parts| == 1 ==> r == parts[0]
    ensures |parts| >= 1 ==> |parts[0]| <= |r| && r[..|parts[0]|] == parts[0]
    decreases |parts|
  {
    if |parts| == 0 then ""
    else if |parts| == 1 then parts[0]
    else parts[0] + sep + Join(sep, parts[1..])
  }

  /** The pieces of `s` between occurrences of `sep`; never empty. */
  function Split(sep: char, s: string): (r: seq<string>)
    ensures |r| >= 1
    decreases |s|
  {
    if |s| == 0 then [""]
    else
      var rest := Split(sep, s[1..]);
      if s[0] == sep then [""] + rest else [[s[0]] + rest[0]] + rest[1..]
  }

  predicate NoneContains(sep: char, parts: seq<string>) {
    forall i :: 0 <= i < |parts| ==> sep !in parts[i]
  }

  lemma NoneContainsConcat(sep: char, a: seq<string>, b: seq<string>)
    requires NoneContains(sep, a) && NoneContains(sep, b)
    ensures NoneContains(sep, a + b)
  {
    forall i | 0 <= i < |a + b|
      ensures sep !in (a + b)[i]
    {
      if i >= |a| {
        assert (a + b)[i] == b[i - |a|];
      }
    }
  }

  function LastChar(s: string): char
    requires |s| >= 1
  {
    s[|s| - 1]
  }

  lemma {:induction false} SplitWithoutSeparator(sep: char, x: string)
    requires sep !in x
    ensures Split(sep, x) == [x]
    decreases |x|
  {
    if |x| > 0 {
      assert sep !in x[1..];
      SplitWithoutSeparator(sep, x[1..]);
      assert [x[0]] + x[1..] == x;
    }
  }

  lemma {:induction false} SplitAtFirstSeparator(sep: char, x: string, y: string)
    requires sep !in x
    ensures Split(sep, x + [sep] + y) == [x] + Split(sep, y)
    decreases |x|
  {
    var s := x + [sep] + y;
    if |x| == 0 {
      assert s[1..] == y;
    } else {
      assert s[1..] == x[1..] + [sep] + y;
      assert sep !in x[1..];
      SplitAtFirstSeparator(sep, x[1..], y);
      assert [x[0]] + x[1..] == x;
    }
  }

  /** Splitting a join on a separator no part contains recovers the parts. */
  lemma {:induction false} SplitJoin(sep: char, parts: seq<string>)
    requires |parts| >= 1 && NoneContains(sep, parts)
    ensures Split(sep, Join([sep], parts)) == parts
    decreases |parts|
  {
    if |parts| == 1 {
      SplitWithoutSeparator(sep, parts[0]);
    } else {
      assert NoneContains(sep, parts[1..]);
      SplitJoin(sep, parts[1..]);
      SplitAtFirstSeparator(sep, parts[0], Join([sep], parts[1..]));
      assert [parts[0]] + parts[1..] == parts;
    }
  }

  /** A join ends with the last character of its last part, when that part is not empty. */
  lemma {:induction false} JoinEndsWithLastPart(sep: string, parts: seq<string>)
    requires |parts| >= 1 && |parts[|parts| - 1]| >= 1
    ensures |Join(sep, parts)| >= 1
    ensures LastChar(Join(sep, parts)) == LastChar(parts[|parts| - 1])
    decreases |parts|
  {
    if |parts| > 1 {
      assert parts[1..][|parts[1..]| - 1] == parts[|parts| - 1];
      JoinEndsWithLastPart(sep, parts[1..]);
    }
  }

  /** A character absent from the separator and from every part is absent from their join. */
  lemma {:induction false} JoinAvoids(c: char, sep: string, parts: seq<string>)
    requires c !in sep && NoneContains(c, parts)
    ensures c !in Join(sep, parts)
    decreases |parts|
  {
    if |parts| > 1 {
      assert NoneContains(c, parts[1..]);
      JoinAvoids(c, sep, parts[1..]);
    }
  }
}

=== FILE: wrappers.dfy ===
/** The optional value used wherever the source accepts `None`. */
module Wrappers {

  datatype Option<+T> = None | Some(value: T) {

    /** Returns the value held in Some, or `default` when None. */
    function GetOr(default: T): T {
      match this
      case Some(v) => v
      case None => default
    }
  }
}
